=== FILE: README.md ===
# LLM settings console — a Dafny model of its decision logic

The console lets an operator choose between a hosted LLM API (OpenAI) and a local
inference server (Ollama), store the API key and model names in Redis, and watch
whether Redis and the providers are reachable. Around the network calls sit a few
pieces of deterministic logic, and this project models them as pure functions over
immutable values. Every network result is an input value: a Redis read or write, a
Redis ping, the SDK's `listModels` and completion calls, Ollama's `/tags` and
`/generate`, and the scheduler's cached status.

- `common.dfy` (`Common`) holds the shared pieces: optional values, thrown errors,
  alert messages, and the JavaScript string idioms the code relies on. Those are
  `a || b` defaults, `repeat`, `includes` and `trim() === ''`.
- `kv_store.dfy` (`KvStore`) models Redis as a string map. A read or a write of a
  given key may throw.
- `responses.dfy` (`Responses`) is the canonical completion shape. Both clients hand
  replies back in it.
- `event_log.dfy` (`EventLog`) is the bounded, newest-first event log (`logApiEvent`).
  Both provider clients contain the same code, so it is modelled once.
- `ollama.dfy` (`Ollama`) models the status probe, the model listing, the completion
  calls, and the folding of a chat into one prompt.
- `openai.dfy` (`OpenAi`) models credential resolution with its one-shot "logged"
  flag, the status probe, and the choice between the chat and the legacy request.
- `settings.dfy` (`Settings`) models the key masker, the settings page and the
  decision table of a save.
- `api.dfy` (`Api`) models the `/status` aggregation policy and the `/llm/events`
  dispatch.
- `debug.dfy` (`Debug`) models the debug page's masker, the response-text extraction,
  the preview and the test-prompt message.

Two consequences of clearing the key on the settings page are worth stating:

- Clearing the key deletes `OPENAI_API_KEY` from the process environment
  (routes/settings.js:133). After that only `API_KEY` remains as a fallback, so an
  `OPENAI_API_KEY` loaded from `.env` no longer applies (`Settings.SaveBlankKeyClears`).
- After a blank key is submitted, the key the save handler treats as current is
  always empty (routes/settings.js:134). So a failed test then always gives the
  missing-key warning.

## Model

| member | source | states |
|---|---|---|
| EventLog.Record | utils/ollama.js:69-84 | The new event is first, the old events follow in their old order, and the log never exceeds 50. Below the cap it grows by one; at the cap exactly the oldest entry is dropped. |
| EventLog.RecordAllKeepsNewest | utils/ollama.js:78-84 | After any non-empty run of events, the log is the first 50 of (events newest first, then the old log). |
| EventLog.RetainsMostRecent | utils/openai.js:119-141 | From an empty log, the log holds the most recent min(n, 50) events, newest first. |
| EventLog.RecordAllBounded | utils/ollama.js:15-84 | A log within capacity stays within capacity whatever is recorded. |
| Ollama.CheckStatus | utils/ollama.js:21-45 | Connected iff the reply has status 200 and a body with a `models` field. Any other reply, and any thrown error, gives false. |
| Ollama.GetModels | utils/ollama.js:51-62 | On a recognised success it returns exactly the listed models; otherwise, errors included, it returns `[]`. |
| Ollama.ListedModelsImplyConnected | utils/ollama.js:26-61 | A non-empty listing implies a successful probe; a thrown error gives neither. |
| Ollama.Turn | utils/ollama.js:175-177 | A turn is `Assistant: ` + content for the assistant role and `User: ` + content for every other role. |
| Ollama.TurnRoundTrip | utils/ollama.js:175-177 | A flattened turn reads back to its content and to whether the speaker was the assistant. |
| Ollama.ChatPrompt | utils/ollama.js:174-180 | The prompt always ends with `\n\nAssistant:`. An empty chat gives exactly that. Otherwise the prompt starts with the first turn and a blank line. |
| Ollama.ChatPromptTerminatesEveryTurn | utils/ollama.js:175-180 | For a non-empty chat, the prompt is each turn followed by a blank line, then `Assistant:`. |
| Ollama.ChatPromptAppend | utils/ollama.js:175-180 | Appending a message inserts a blank line and its turn just before the cue. |
| Ollama.TwoTurnExample | utils/ollama.js:175-180 | `[user "hi", assistant "hello"]` becomes `User: hi\n\nAssistant: hello\n\nAssistant:`. |
| Ollama.GetCompletion | utils/ollama.js:107-163 | The call records a request event and then a response or an error event, in that order. A reply with text returns exactly the `text_completion` reshaping of that text for the requested model. A thrown error is rethrown unchanged, and a reply without text is an error. |
| Ollama.GetChatCompletion | utils/ollama.js:172-236 | It sends the flattened prompt and records the messages request, then a response or an error event. A reply with text returns exactly the `chat.completion` reshaping of that text, as the assistant's message, for the requested model. Errors are rethrown. |
| OpenAi.EnvApiKey | utils/openai.js:30 | `OPENAI_API_KEY` if it is non-empty, else `API_KEY` if it is non-empty, else the empty string. |
| OpenAi.GetApiKey | utils/openai.js:16-46 | A non-empty stored key wins. Otherwise, and also when the store read throws, the environment chain decides. The flag is set only by a successful read that yields a non-empty key. |
| OpenAi.EmptyKeyMeansNoSource | utils/openai.js:16-46 | The resolved key is empty iff neither the store nor either environment variable holds a non-empty key. |
| OpenAi.LoggedFlagIsOneShot | utils/openai.js:13-38 | The flag only goes from false to true, only with a non-empty key, and a repeated resolution changes nothing. |
| OpenAi.CheckStatus | utils/openai.js:80-115 | `listModels` is called iff the resolved key is non-empty. The result is true iff that call succeeds. |
| Common.ContainsIffOccurs | utils/openai.js:173 | `includes` holds exactly when the searched text occurs at some position, proved in both directions. |
| OpenAi.BuildRequest | utils/openai.js:173-208 | The chat shape, with one user message holding the prompt, iff the model name contains `gpt-3.5` or `gpt-4`; otherwise the legacy prompt shape. |
| OpenAi.GetCompletion | utils/openai.js:164-226 | The request sent carries the requested model and token limit. The request event is tagged `chat` or `completion` to match the chosen shape. A response or an error event follows it, and errors are rethrown. The log stays within 50 entries. |
| OpenAi.ShapeExamples | utils/openai.js:164-173 | The default `gpt-3.5-turbo` and `gpt-4o` take the chat shape; `text-davinci-003` takes the legacy shape. |
| KvStore.Get | routes/settings.js:258-266 | A failed read is reported as null. Otherwise the read returns the stored value, or null for an unset key. |
| KvStore.Write | routes/settings.js:268-277 | A write fails exactly for a refusing key and then changes nothing. Otherwise it updates only that key. |
| KvStore.WriteThenRead | routes/settings.js:258-277 | After a successful write, a readable read of the same key returns the written value. A read of any other key is unchanged. |
| Settings.MaskApiKey | routes/settings.js:280-285 | It returns the empty string for a key shorter than 8. From length 8 on, the length is kept, the first and last 4 characters are kept, and every character in between becomes `*`. |
| Settings.MaskRevealsOnlyEnds | routes/settings.js:283-284 | Two keys of equal length that share their first and last four characters mask identically. |
| Settings.SettingsGet | routes/settings.js:27-74 | The OpenAI status shown is true iff the resolved key is non-empty and `listModels` succeeds, and the credential flag moves as that status check's key resolution moves it. An absent stored value falls back to `gpt-3.5-turbo`, `openai` or `llama3.3`. The Ollama list is never empty: it falls back to the configured model. The key is shown masked. |
| Settings.SaveSettings | routes/settings.js:90-224 | A danger message appears iff one of the save's writes is refused. A refused provider write changes nothing: store, environment and credential flag are as before, and no status check runs. Any refused selection write leaves the environment and the flag unchanged. Once the three selection writes succeed, the store and the environment hold the provider and both models, whatever the provider branch does next. |
| Settings.WriteSelection | routes/settings.js:99-102 | The provider, OpenAI-model and Ollama-model writes run in that order and the first refused write stops the rest: the store then holds exactly the writes before it. With no refusal all three values are stored. |
| Settings.SaveOpenAi | routes/settings.js:113-175 | With no key submitted, or a refused key write, the store and environment are unchanged. A non-blank key is stored and mirrored into `OPENAI_API_KEY`; a blank one stores `""` and deletes `OPENAI_API_KEY`. The status check runs on the store and environment after that write, so it skips `listModels` when no key resolves (utils/openai.js:87-90). When the check fails, for any reason, the warning is the no-key one iff the handler's `currentApiKey` is empty, and the failed-test one otherwise. When the check passes and no blank key was posted, the save succeeds. |
| Settings.GetAfterSave | routes/settings.js:27-107 | After a successful save, the settings page, read in the environment and with the flag the save left, shows the saved provider and models. A value posted as the empty string is stored as such but shown as its default; a field not posted at all was saved as its default. |
| Settings.SaveWritesInOrder | routes/settings.js:99-102 | The writes run in order: when the OpenAI-model write fails, only the provider has been written. |
| Settings.SaveKeepsSelection | routes/settings.js:99-107 | Once the three writes succeed, the store and the environment hold the provider and both models, whatever happens next, including a refused key write. |
| Settings.SaveOpenAiDecision | routes/settings.js:113-175 | Within a whole save, the status check runs on the saved store and environment. When it fails, for any reason, the warning is the no-key one iff the handler's `currentApiKey` is empty, and the failed-test one otherwise. When it passes and no blank key was posted, the save succeeds. |
| Settings.SaveEnvironmentKey | routes/settings.js:113-164 | With no key posted and none stored, `listModels` is called iff the environment holds a key. Such a key plus a working API gives success. No key anywhere gives the no-key warning. A failing API also gives the no-key warning, because `currentApiKey` (line 114) reads only the store. |
| Settings.SaveBlankKeyClears | routes/settings.js:118-158 | A blank key stores `""` and removes `OPENAI_API_KEY`. The probe runs iff `API_KEY` is set. The message is info iff the probe succeeds; otherwise it is the no-key warning. |
| Settings.SaveOllamaDecision | routes/settings.js:178-205 | A failed probe gives the connection warning. After a successful probe, the missing-model warning appears iff no listed model has the chosen name; otherwise the save succeeds. |
| Settings.SaveOtherProvider | routes/settings.js:207-223 | Any other provider value saves without a probe and reports success. |
| Api.AfterProbe | routes/api.js:53-60 | A probe that throws leaves the cached record; otherwise the fresh record replaces it. |
| Api.GetStatus | routes/api.js:26-110 | `redis` is always the ping result, and the provider scope defaults to `all`. The OpenAI fields appear iff the scope is `all` or `openai`, and likewise for Ollama. OpenAI is probed at most once and only when forced. Ollama is probed exactly once when forced or never checked, and otherwise not at all. `ollamaModels` appears iff the scope is exactly `ollama` and Ollama is accessible. |
| Api.OllamaProbedOnceWhenForcedOrUnknown | routes/api.js:67-88 | A forced check probes Ollama exactly once whether or not it was checked before. Unforced, only a never-checked record is probed. |
| Api.OpenAiNeverProbedUnforced | routes/api.js:49-65 | Unforced, OpenAI is not probed and is reported from the cache unchanged. |
| Api.LlmEvents | routes/api.js:125-144 | The provider defaults to `openai`, and `openai`/`ollama` select their log. Any other value gets a 400 reply. |
| Debug.MaskForDebug | routes/debug.js:23-31 | An empty key gives the empty string. A key of length 1 to 8 gives `********`. A longer key keeps its first and last 4 characters and stars the rest. |
| Debug.MaskersDisagreeOnShortKeys | routes/debug.js:26-30 | A key of length 8 is shown in full by the settings masker but as `********` here. For lengths 1 to 7, only the settings masker gives the empty string. Above 8 the two maskers agree. |
| Debug.ResponseText | routes/debug.js:58-65 | It is `choices[0].message.content` when a message exists, else `choices[0].text`, else the empty string. Missing or empty `choices` also give the empty string. |
| Debug.OllamaRepliesReadBack | utils/ollama.js:128-219 | Both reshaped Ollama replies read back as the generated text, and so does what `getCompletion` or `getChatCompletion` returns for a reply carrying that text. |
| Debug.Preview | routes/debug.js:69 | It keeps the first 100 characters and appends `...` iff the text is longer than 100. |
| Debug.OpenAiTest | routes/debug.js:44-92 | There is always exactly one message. Status false gives the not-accessible warning; no prompt gives "Please enter a prompt.". Otherwise the outcome is success with the preview or danger. The request uses the chat shape. |

## Left out

- Console output, event ids and timestamps, and the `JSON.parse(JSON.stringify)` deep copy are not modelled. With immutable values the copy is implicit.
- The token usage estimates are left out: they are floating-point divisions by 4.
- The Ollama client's `apiStatusMessageLogged` flag is left out, because it only suppresses a repeated console line.
- Redis client construction and connection, Express routing, rendering, sessions and the authentication middleware are left out. The same goes for the browser status poller and the scheduler's own checks; the scheduler appears only as its cached records and the outcome of a forced check.
- `getApiKeySync` and the initial client configuration are left out. `refreshClient` is modelled only through the key resolution it performs: `getApiKey` never throws, so it always returns true.
- `/ollama/models` and `/openai/events` are left out. They return `Ollama.GetModels` and the OpenAI log unchanged.
- The outer error handlers of the settings GET and the debug POST are left out. The calls inside them already catch their own errors.
- The response `timestamp` of `/status` is left out.
- Debug.OpenAiTest: takes the status check's result and the credential flag after it as inputs, rather than recomputing them with `OpenAi.CheckStatus`.
- Debug.MaskForDebug: models the masker on the key string. As written, the debug routes call `getApiKey()` without `await`, so the masker sees a Promise, whose `length` is undefined, and always shows `********` (routes/debug.js:13, 46).
- Settings.SaveSettings: models the intended success flash of routes/settings.js:219-223. As written, the handler has already redirected at line 207, so that second message and redirect never reach the browser. Reading the code, the second `res.redirect` at line 223 runs after the response was sent, which Express reports as `ERR_HTTP_HEADERS_SENT`, thrown inside an async handler with no surrounding catch; this follows from the text alone and was not observed.
- Settings.SaveOpenAiDecision: its success case is the intended flash of routes/settings.js:219-223, which never reaches the browser as written (see Settings.SaveSettings).
- Settings.SaveOllamaDecision: its success case is the intended flash of routes/settings.js:219-223, which never reaches the browser as written (see Settings.SaveSettings).
- Settings.SaveOtherProvider: its success flash is the intended one of routes/settings.js:219-223, which never reaches the browser as written (see Settings.SaveSettings).
- Settings.SaveSettings: the accumulated `successMessage` text is never shown, so it is not modelled (routes/settings.js:110, 148, 196).
- Ollama.GetCompletion: a `/generate` reply without a body is not modelled. Such a reply would fail earlier, while the raw reply is logged.
- Ollama.GetChatCompletion: a `/generate` reply without a body is not modelled either. Such a reply would throw while reading `response` from the missing body (utils/ollama.js:209), with a different error message than the missing-text case the model covers.
- Ollama.GetCompletion: each call is modelled alone. Two calls in flight at once can interleave their events across the awaited HTTP request (utils/ollama.js:118, 125, 149), so their request and outcome events need not be adjacent. Each prepend-and-truncate is synchronous, so the capacity and newest-first order of the log hold regardless.
- Ollama.GetChatCompletion: each call is modelled alone, for the same reason as `getCompletion` (utils/ollama.js:191, 198, 222). The capacity and order of the log are unaffected.
- OpenAi.GetCompletion: each call is modelled alone; concurrent calls can interleave events across the awaited SDK request (utils/openai.js:181, 189, 212). The capacity and order of the log are unaffected.
- The `details` field of an error event (`error.response?.data`, utils/ollama.js:157 and 230, utils/openai.js:220) is not modelled: `Fault` keeps only the message and the status code. The body of an HTTP error reply is not part of the model.
- Debug.Preview: lengths and slices count Unicode code points, while JavaScript's `length` and `substring` count UTF-16 code units. For text with characters outside the Basic Multilingual Plane (an emoji, say) the cut point and the `...` decision can differ from the source.
- Settings.MaskApiKey: counts code points, not UTF-16 code units (routes/settings.js:281-284). For keys made of plain ASCII, as API keys are, the two agree.
- Debug.MaskForDebug: counts code points, not UTF-16 code units (routes/debug.js:25-27). The two agree for ASCII keys.

=== FILE: api.dfy ===
/** The internal API routes (routes/api.js): the `/status` aggregation over the
    store ping and the scheduler's cached provider records, and the `/llm/events`
    dispatch. The scheduler is abstracted to its cached records and the outcome of
    a forced check. */
module Api {
  import opened Common
  import opened Responses
  import opened EventLog
  import Ollama

  /** A provider's cached reachability: `lastChecked` is absent until the first probe. */
  datatype StatusRecord = StatusRecord(accessible: bool, lastChecked: Option<string>)

  /** `scheduler.getLlmStatusInfo()` */
  datatype LlmStatusInfo = LlmStatusInfo(currentProvider: string, openAi: StatusRecord, ollama: StatusRecord)

  /** A forced check followed by a fresh read of the scheduler's record: the new
      record, or a thrown error (in the check or in the re-read). */
  datatype Probe = ProbeThrew | ProbeRecord(record: StatusRecord)

  /** The JSON body of a successful `/status` reply; a field is `None` when omitted. */
  datatype StatusPayload = StatusPayload(
    redis: bool, currentProvider: string,
    openAi: Option<StatusRecord>, ollama: Option<StatusRecord>, ollamaModels: Option<seq<ModelInfo>>)

  /** HTTP 200 with the payload, or HTTP 500 with an error body. */
  datatype StatusReply = StatusOk(payload: StatusPayload) | StatusFailed(error: string)

  /** The reply together with how many probes of each provider were run. */
  datatype Aggregation = Aggregation(reply: StatusReply, openAiProbes: nat, ollamaProbes: nat)

  /** A probe that throws leaves the cached record in place. */
  function AfterProbe(cached: StatusRecord, probe: Probe): (r: StatusRecord)
    ensures probe.ProbeThrew? ==> r == cached
    ensures probe.ProbeRecord? ==> r == probe.record
  {
    if probe.ProbeRecord? then probe.record else cached
  }

  /** `req.query.provider || 'all'` */
  function StatusScope(provider: Option<string>): string
  {
    OrElse(provider, "all")
  }

  /** GET `/status`. `info` is `None` when reading the scheduler's records throws. */
  function GetStatus(provider: Option<string>, forceCheck: Option<string>, redisUp: bool,
                     info: Option<LlmStatusInfo>, openAiProbe: Probe, ollamaProbe: Probe,
                     modelsTags: Ollama.TagsOutcome): (a: Aggregation)
    ensures a.reply.StatusOk? <==> info.Some?
    ensures a.openAiProbes <= 1 && a.ollamaProbes <= 1
    ensures a.openAiProbes == 1 <==>
              info.Some? && StatusScope(provider) in {"all", "openai"} && forceCheck == Some("true")
    ensures a.ollamaProbes == 1 <==>
              (info.Some? && StatusScope(provider) in {"all", "ollama"}
               && (forceCheck == Some("true") || !Truthy(info.value.ollama.lastChecked)))
    ensures a.reply.StatusOk? ==> a.reply.payload.redis == redisUp
    ensures a.reply.StatusOk? ==> a.reply.payload.currentProvider == info.value.currentProvider
    ensures a.reply.StatusOk? ==> (a.reply.payload.openAi.Some? <==> StatusScope(provider) in {"all", "openai"})
    ensures a.reply.StatusOk? ==> (a.reply.payload.ollama.Some? <==> StatusScope(provider) in {"all", "ollama"})
    ensures a.reply.StatusOk? && a.reply.payload.openAi.Some? ==>
              a.reply.payload.openAi.value == (if a.openAiProbes == 1 then AfterProbe(info.value.openAi, openAiProbe) else info.value.openAi)
    ensures a.reply.StatusOk? && a.reply.payload.ollama.Some? ==>
              a.reply.payload.ollama.value == (if a.ollamaProbes == 1 then AfterProbe(info.value.ollama, ollamaProbe) else info.value.ollama)
    ensures a.reply.StatusOk? ==>
              (a.reply.payload.ollamaModels.Some? <==>
               provider == Some("ollama") && a.reply.payload.ollama.Some? && a.reply.payload.ollama.value.accessible)
    ensures a.reply.StatusOk? && a.reply.payload.ollamaModels.Some? ==>
              a.reply.payload.ollamaModels.value == Ollama.GetModels(modelsTags)
  {
    var scope := StatusScope(provider);
    var forced := forceCheck == Some("true");
    match info
    case None => Aggregation(StatusFailed("Failed to check service status"), 0, 0)
    case Some(cached) =>
      var wantsOpenAi := scope == "all" || scope == "openai";
      var wantsOllama := scope == "all" || scope == "ollama";
      var probeOpenAi := wantsOpenAi && forced;
      var probeOllama := wantsOllama && (forced || !Truthy(cached.ollama.lastChecked));
      var openAi := if probeOpenAi then AfterProbe(cached.openAi, openAiProbe) else cached.openAi;
      var ollama := if probeOllama then AfterProbe(cached.ollama, ollamaProbe) else cached.ollama;
      var models := if wantsOllama && scope == "ollama" && ollama.accessible then Some(Ollama.GetModels(modelsTags)) else None;
      Aggregation(
        StatusOk(StatusPayload(redisUp, cached.currentProvider,
                               if wantsOpenAi then Some(openAi) else None,
                               if wantsOllama then Some(ollama) else None,
                               models)),
        if probeOpenAi then 1 else 0,
        if probeOllama then 1 else 0)
  }

  /** Forcing a check of the local provider runs exactly one probe, whether or not it
      was ever checked before; without forcing, only a never-checked record is probed. */
  lemma OllamaProbedOnceWhenForcedOrUnknown(scope: string, redisUp: bool, info: LlmStatusInfo,
                                            openAiProbe: Probe, ollamaProbe: Probe, modelsTags: Ollama.TagsOutcome)
    requires scope == "all" || scope == "ollama"
    ensures GetStatus(Some(scope), Some("true"), redisUp, Some(info), openAiProbe, ollamaProbe, modelsTags).ollamaProbes == 1
    ensures Truthy(info.ollama.lastChecked) ==>
              GetStatus(Some(scope), None, redisUp, Some(info), openAiProbe, ollamaProbe, modelsTags).ollamaProbes == 0
    ensures !Truthy(info.ollama.lastChecked) ==>
              GetStatus(Some(scope), None, redisUp, Some(info), openAiProbe, ollamaProbe, modelsTags).ollamaProbes == 1
  {
  }

  /** Without `forceCheck=true` the cloud provider is reported from the cache as is,
      however stale, and never probed. */
  lemma OpenAiNeverProbedUnforced(provider: Option<string>, forceCheck: Option<string>, redisUp: bool, info: LlmStatusInfo,
                                  openAiProbe: Probe, ollamaProbe: Probe, modelsTags: Ollama.TagsOutcome)
    requires forceCheck != Some("true")
    ensures var a := GetStatus(provider, forceCheck, redisUp, Some(info), openAiProbe, ollamaProbe, modelsTags);
      a.openAiProbes == 0 && (a.reply.payload.openAi.Some? ==> a.reply.payload.openAi.value == info.openAi)
  {
  }

  /** `/llm/events` replies: the log, or HTTP 400 with an error body. */
  datatype EventsReply = EventsOk(events: seq<Event>) | EventsBadRequest(error: string)

  /** GET `/llm/events`: the provider defaults to `openai`; an unknown provider is a
      client error. */
  function LlmEvents(provider: Option<string>, openAiLog: seq<Event>, ollamaLog: seq<Event>): (r: EventsReply)
    ensures !Truthy(provider) ==> r == EventsOk(openAiLog)
    ensures provider == Some("openai") ==> r == EventsOk(openAiLog)
    ensures provider == Some("ollama") ==> r == EventsOk(ollamaLog)
    ensures r.EventsBadRequest? <==> Truthy(provider) && provider.value != "openai" && provider.value != "ollama"
  {
    var which := OrElse(provider, "openai");
    if which == "openai" then EventsOk(openAiLog)
    else if which == "ollama" then EventsOk(ollamaLog)
    else EventsBadRequest("Invalid provider specified")
  }
}

=== FILE: common.dfy ===
/** Values and string helpers shared by every part of the LLM settings console model:
    optional values, thrown errors, flash/alert messages, and the few JavaScript
    string idioms the routes rely on (`a || b` defaults, `repeat`, `includes`, `trim`). */
module Common {

  datatype Option<+T> = None | Some(value: T)

  /** The process environment (`process.env`), a map from variable names to strings. */
  type Env = map<string, string>

  /** An error thrown by a collaborator: its `message` and, for HTTP errors, the
      status code of `error.response`. */
  datatype Fault = Fault(message: string, code: Option<int>)

  /** The outcome of an async call that either returns a value or throws. */
  datatype Call<+T> = Returned(value: T) | Threw(fault: Fault)

  /** Bootstrap alert classes used for flash and debug messages. */
  datatype AlertKind = Success | Info | Warning | Danger

  datatype Alert = Alert(kind: AlertKind, text: string)

  /** JavaScript truthiness of a string that may be null/undefined. */
  predicate Truthy(v: Option<string>)
  {
    v.Some? && v.value != ""
  }

  /** JavaScript `v || fallback` for a string that may be null/undefined:
      absent and empty values both fall through. */
  function OrElse(v: Option<string>, fallback: string): (r: string)
    ensures Truthy(v) ==> r == v.value
    ensures !Truthy(v) ==> r == fallback
  {
    if Truthy(v) then v.value else fallback
  }

  /** Looks up an environment variable (`process.env[name]`). */
  function EnvGet(env: Env, name: string): Option<string>
  {
    if name in env then Some(env[name]) else None
  }

  /** `c.repeat(n)` */
  function Repeat(c: char, n: nat): (s: string)
    ensures |s| == n
    ensures forall i :: 0 <= i < n ==> s[i] == c
  {
    if n == 0 then "" else [c] + Repeat(c, n - 1)
  }

  /** `s.startsWith(prefix)` */
  predicate StartsWith(s: string, prefix: string)
  {
    |prefix| <= |s| && s[..|prefix|] == prefix
  }

  lemma AppendAssoc<T>(a: seq<T>, b: seq<T>, c: seq<T>)
    ensures a + (b + c) == (a + b) + c
  {
  }

  /** `s.endsWith(suffix)` */
  predicate EndsWith(s: string, suffix: string)
  {
    |suffix| <= |s| && s[|s| - |suffix|..] == suffix
  }

  /** `s.includes(sub)`: `sub` starts at some position of `s`. */
  predicate Contains(s: string, sub: string)
    decreases |s|
  {
    StartsWith(s, sub) || (|s| > 0 && Contains(s[1..], sub))
  }

  /** `sub` occurs in `s` starting at position `i`. */
  predicate OccursAt(s: string, sub: string, i: int)
  {
    0 <= i <= |s| - |sub| && s[i..i + |sub|] == sub
  }

  /** `Contains` holds exactly when `sub` occurs at some position of `s`. */
  lemma {:induction false} ContainsIffOccurs(s: string, sub: string)
    ensures Contains(s, sub) <==> exists i :: OccursAt(s, sub, i)
    decreases |s|
  {
    if Contains(s, sub) {
      if StartsWith(s, sub) {
        assert OccursAt(s, sub, 0);
      } else {
        ContainsIffOccurs(s[1..], sub);
        var j :| OccursAt(s[1..], sub, j);
        assert s[1..][j..j + |sub|] == s[j + 1..j + 1 + |sub|];
        assert OccursAt(s, sub, j + 1);
      }
    }
    if exists i :: OccursAt(s, sub, i) {
      var i :| OccursAt(s, sub, i);
      if i == 0 {
        assert StartsWith(s, sub);
      } else {
        assert s[1..][i - 1..i - 1 + |sub|] == s[i..i + |sub|];
        assert OccursAt(s[1..], sub, i - 1);
        ContainsIffOccurs(s[1..], sub);
      }
    }
  }

  /** The characters JavaScript's `String.prototype.trim` removes
      (WhiteSpace and LineTerminator of ECMA-262). */
  predicate IsJsWhitespace(c: char)
  {
    || c == ' ' || c == '\t' || c == '\n' || c == '\r'
    || c == '\U{0B}' || c == '\U{0C}' || c == '\U{A0}' || c == '\U{FEFF}'
    || c == '\U{1680}' || ('\U{2000}' <= c <= '\U{200A}')
    || c == '\U{2028}' || c == '\U{2029}' || c == '\U{202F}'
    || c == '\U{205F}' || c == '\U{3000}'
  }

  /** `s.trim() === ''` */
  predicate IsBlank(s: string)
  {
    forall i :: 0 <= i < |s| ==> IsJsWhitespace(s[i])
  }
}

=== FILE: debug.dfy ===
/** The debug console (routes/debug.js): its inline key masker, the text it pulls
    out of a completion, the 100-character preview, and the message shown after a
    test prompt. */
module Debug {
  import opened Common
  import opened Responses
  import opened KvStore
  import opened EventLog
  import OpenAi
  import Ollama
  import Settings

  const NotAccessibleText: string := "OpenAI API is not accessible. Check your API key."
  const NoPromptText: string := "Please enter a prompt."
  const SentPrefix: string := "Prompt successfully sent. OpenAI response: \""

  /** The preview length of a response shown after a test prompt. */
  const PreviewLength: nat := 100

  /** The inline masker of the debug page: nothing for an empty key, eight stars for
      a key of at most eight characters, otherwise the first and last four
      characters with a star for each one in between. */
  function MaskForDebug(key: string): (m: string)
    ensures key == "" ==> m == ""
    ensures 0 < |key| <= 8 ==> m == "********"
    ensures |key| > 8 ==> |m| == |key| && m[..4] == key[..4] && m[|key| - 4..] == key[|key| - 4..]
    ensures |key| > 8 ==> forall i :: 4 <= i < |key| - 4 ==> m[i] == '*'
  {
    if key == "" then ""
    else if |key| > 8 then key[..4] + Repeat('*', |key| - 8) + key[|key| - 4..]
    else "********"
  }

  /** The two maskers agree except on short keys: a key of exactly eight characters
      is shown in full on the settings page and as eight stars here, and a key of
      one to seven characters is shown as nothing there and as eight stars here. */
  lemma MaskersDisagreeOnShortKeys(key: string)
    ensures key == "" ==> Settings.MaskApiKey(key) == "" && MaskForDebug(key) == ""
    ensures 0 < |key| < 8 ==> Settings.MaskApiKey(key) == "" && MaskForDebug(key) == "********"
    ensures |key| == 8 ==> Settings.MaskApiKey(key) == key && MaskForDebug(key) == "********"
    ensures |key| > 8 ==> Settings.MaskApiKey(key) == MaskForDebug(key)
  {
  }

  /** The text of the first choice: its message content when it has a message,
      otherwise its legacy text; anything missing reads as empty. */
  function ResponseText(resp: Completion): (t: string)
    ensures resp.choices.None? || resp.choices.value == [] ==> t == ""
    ensures resp.choices.Some? && resp.choices.value != [] && resp.choices.value[0].message.Some? ==>
              t == OrElse(resp.choices.value[0].message.value.content, "")
    ensures resp.choices.Some? && resp.choices.value != [] && resp.choices.value[0].message.None? ==>
              t == OrElse(resp.choices.value[0].text, "")
  {
    match resp.choices
    case None => ""
    case Some(choices) =>
      if |choices| == 0 then ""
      else if choices[0].message.Some? then OrElse(choices[0].message.value.content, "")
      else OrElse(choices[0].text, "")
  }

  /** Both shapes the Ollama client builds read back as the generated text, and so
      does whatever either call returns for a reply that carries text. */
  lemma OllamaRepliesReadBack(model: string, text: string, log: seq<Event>, prompt: string,
                              messages: seq<ChatMessage>, maxTokens: int)
    ensures ResponseText(Ollama.TextCompletion(model, text)) == text
    ensures ResponseText(Ollama.ChatCompletion(model, text)) == text
    ensures var r := Ollama.GetCompletion(log, prompt, model, maxTokens, Ollama.GenerateReplied(Some(text)));
      r.result.Returned? && ResponseText(r.result.value) == text
    ensures var r := Ollama.GetChatCompletion(log, messages, model, maxTokens, Ollama.GenerateReplied(Some(text)));
      r.result.Returned? && ResponseText(r.result.value) == text
  {
  }

  /** The first `PreviewLength` characters, with `...` appended when the text is longer. */
  function Preview(text: string): (p: string)
    ensures |text| <= PreviewLength ==> p == text
    ensures |text| > PreviewLength ==> |p| == PreviewLength + 3 && p[..PreviewLength] == text[..PreviewLength]
    ensures |text| > PreviewLength ==> p[PreviewLength..] == "..."
  {
    if |text| > PreviewLength then text[..PreviewLength] + "..." else text
  }

  /** What the test page shows after a POST, with the event log and credential
      flag after it. */
  datatype TestPage = TestPage(messages: seq<Alert>, log: seq<Event>, keyLogged: bool)

  /** POST `/openai-test`. `status` is what the status check returned and `logged`
      the credential flag after it; `outcome` is what the SDK call returns or
      throws if a completion is requested (with the default model). */
  function OpenAiTest(status: bool, prompt: Option<string>, log: seq<Event>,
                      stored: ReadResult, env: Env, logged: bool, outcome: Call<Completion>): (r: TestPage)
    ensures |r.messages| == 1
    ensures !status ==> r.messages[0] == Alert(Warning, NotAccessibleText) && r.log == log
    ensures status && !Truthy(prompt) ==> r.messages[0] == Alert(Warning, NoPromptText) && r.log == log
    ensures status && Truthy(prompt) && outcome.Returned? ==>
              r.messages[0] == Alert(Success, SentPrefix + Preview(ResponseText(outcome.value)) + "\"")
    ensures status && Truthy(prompt) && outcome.Threw? ==>
              r.messages[0] == Alert(Danger, "Error getting completion: " + outcome.fault.message)
    ensures status && Truthy(prompt) ==>
              |r.log| >= 2 && r.log[1].kind == Request && r.log[1].data.PromptRequest?
              && r.log[1].data.tag == Some(ChatTag) && r.log[1].data.prompt == prompt.value
  {
    if status && Truthy(prompt) then
      var call := OpenAi.GetCompletion(log, prompt.value, OpenAi.DefaultModel, OpenAi.DefaultMaxTokens,
                                       stored, env, logged, outcome);
      OpenAi.ShapeExamples();
      var message := match call.result
        case Returned(resp) => Alert(Success, SentPrefix + Preview(ResponseText(resp)) + "\"")
        case Threw(f) => Alert(Danger, "Error getting completion: " + f.message);
      TestPage([message], call.log, call.logged)
    else if !status then TestPage([Alert(Warning, NotAccessibleText)], log, logged)
    else TestPage([Alert(Warning, NoPromptText)], log, logged)
  }
}

=== FILE: event_log.dfy ===
/** The bounded, newest-first log of provider traffic kept by each provider client
    (`logApiEvent` / `getApiEvents`). Both clients use the same code, modelled once. */
module EventLog {
  import opened Common
  import opened Responses

  /** `MAX_EVENTS` */
  const MaxEvents: nat := 50

  datatype EventKind = Request | Response | Error

  /** The `type` the OpenAI client adds to a request event for the shape it chose. */
  datatype RequestTag = ChatTag | CompletionTag

  /** The recorded payload. The id and timestamp stamps are not modelled; with
      immutable values the deep copy is implicit. */
  datatype EventData =
    | PromptRequest(model: string, prompt: string, maxTokens: int, tag: Option<RequestTag>)
    | MessagesRequest(model: string, messages: seq<ChatMessage>, maxTokens: int)
    | ResponseBody(body: Completion)
    | ErrorDetails(fault: Fault)

  datatype Event = Event(kind: EventKind, data: EventData)

  /** The first `n` entries, what setting an array's `length` to `n` keeps. */
  function Take<T>(s: seq<T>, n: nat): (r: seq<T>)
    ensures |r| == if |s| < n then |s| else n
    ensures r == s[..|r|]
  {
    if |s| <= n then s else s[..n]
  }

  /** `logApiEvent`: prepend the new event, then cut the array back to `MaxEvents`. */
  function Record(log: seq<Event>, e: Event): (r: seq<Event>)
    ensures |r| <= MaxEvents
    ensures |r| == if |log| < MaxEvents then |log| + 1 else MaxEvents
    ensures r[0] == e
    ensures r[1..] == log[..|r| - 1]
  {
    var grown := [e] + log;
    if |grown| > MaxEvents then grown[..MaxEvents] else grown
  }

  /** The log after recording `events` in order, oldest first. */
  function RecordAll(log: seq<Event>, events: seq<Event>): seq<Event>
  {
    if |events| == 0 then log
    else Record(RecordAll(log, events[..|events| - 1]), events[|events| - 1])
  }

  /** The events newest first. */
  function Reverse<T>(s: seq<T>): (r: seq<T>)
    ensures |r| == |s|
  {
    if |s| == 0 then [] else [s[|s| - 1]] + Reverse(s[..|s| - 1])
  }

  lemma {:induction false} ReverseIndex<T>(s: seq<T>, i: nat)
    requires i < |s|
    ensures Reverse(s)[i] == s[|s| - 1 - i]
  {
    var init := s[..|s| - 1];
    assert Reverse(s) == [s[|s| - 1]] + Reverse(init);
    if i > 0 {
      ReverseIndex(init, i - 1);
      assert init[|init| - 1 - (i - 1)] == s[|s| - 1 - i];
    }
  }

  lemma TakeAfterPrepend<T>(e: T, s: seq<T>, n: nat)
    requires n >= 1
    ensures Take([e] + Take(s, n), n) == Take([e] + s, n)
  {
  }

  lemma RecordIsTake(log: seq<Event>, e: Event)
    ensures Record(log, e) == Take([e] + log, MaxEvents)
  {
  }

  /** Whatever the history, the log holds exactly the `MaxEvents` most recent
      entries of "everything recorded, newest first, followed by the old log". */
  lemma {:induction false} RecordAllKeepsNewest(log: seq<Event>, events: seq<Event>)
    requires |events| > 0
    ensures RecordAll(log, events) == Take(Reverse(events) + log, MaxEvents)
  {
    var k := |events| - 1;
    var last := events[k];
    var earlier := events[..k];
    var before := RecordAll(log, earlier);
    assert Reverse(events) == [last] + Reverse(earlier);
    assert RecordAll(log, events) == Record(before, last);
    RecordIsTake(before, last);
    if k == 0 {
      assert Reverse(earlier) == [];
      assert before == log;
      assert Reverse(events) + log == [last] + log;
    } else {
      RecordAllKeepsNewest(log, earlier);
      var older := Reverse(earlier) + log;
      assert before == Take(older, MaxEvents);
      TakeAfterPrepend(last, older, MaxEvents);
      assert [last] + older == Reverse(events) + log;
    }
  }

  /** Starting from an empty log, after any run of recorded events the log holds the
      most recent `MaxEvents` of them (all of them when fewer), newest first. */
  lemma RetainsMostRecent(events: seq<Event>)
    ensures |RecordAll([], events)| == if |events| < MaxEvents then |events| else MaxEvents
    ensures forall i :: 0 <= i < |RecordAll([], events)| ==> RecordAll([], events)[i] == events[|events| - 1 - i]
  {
    if |events| > 0 {
      RecordAllKeepsNewest([], events);
      assert Reverse(events) + [] == Reverse(events);
      forall i | 0 <= i < |RecordAll([], events)|
        ensures RecordAll([], events)[i] == events[|events| - 1 - i]
      {
        ReverseIndex(events, i);
      }
    }
  }

  /** The capacity invariant: a log within capacity stays within capacity. */
  lemma RecordAllBounded(log: seq<Event>, events: seq<Event>)
    requires |log| <= MaxEvents
    ensures |RecordAll(log, events)| <= MaxEvents
  {
  }

  /** Recording a request and then its outcome: the outcome is newest, the request
      right behind it, and the older log follows in its old order. */
  lemma RecordPair(log: seq<Event>, request: Event, outcome: Event)
    ensures |Record(Record(log, request), outcome)| == if |log| + 2 < MaxEvents then |log| + 2 else MaxEvents
    ensures Record(Record(log, request), outcome)[0] == outcome
    ensures Record(Record(log, request), outcome)[1] == request
    ensures Record(Record(log, request), outcome)[2..] == log[..|Record(Record(log, request), outcome)| - 2]
  {
  }
}

=== FILE: kv_store.dfy ===
/** The Redis settings store, seen only through `get`/`set`. It is a string map in
    which a read or a write of a given key may fail (the client throws). */
module KvStore {
  import opened Common

  datatype Store = Store(data: map<string, string>, readFails: set<string>, writeFails: map<string, string>)

  /** What `await redisClient.get(key)` produces: a thrown error, or a value
      that is null when the key is unset. */
  datatype ReadResult = ReadThrew | ReadValue(value: Option<string>)

  /** What `await redisClient.set(key, value)` produces: the error message it
      throws, or the updated store. */
  datatype WriteResult = WriteFailed(message: string) | Written(store: Store)

  function Read(s: Store, key: string): (r: ReadResult)
    ensures r.ReadThrew? <==> key in s.readFails
    ensures r.ReadValue? ==> (r.value.Some? <==> key in s.data)
  {
    if key in s.readFails then ReadThrew
    else if key in s.data then ReadValue(Some(s.data[key]))
    else ReadValue(None)
  }

  /** A read whose failure is caught and reported as null, as the route helpers
      `getRedisValue` and `getStoredOpenAIKey` do. */
  function Get(s: Store, key: string): (r: Option<string>)
    ensures r.Some? <==> key !in s.readFails && key in s.data
    ensures r.Some? ==> r.value == s.data[key]
  {
    match Read(s, key)
    case ReadThrew => None
    case ReadValue(v) => v
  }

  /** A write whose failure is re-thrown to the caller, as `storeRedisValue` and
      `storeOpenAIKey` do. */
  function Write(s: Store, key: string, value: string): (r: WriteResult)
    ensures r.WriteFailed? <==> key in s.writeFails
    ensures r.Written? ==> r.store.data == s.data[key := value]
    ensures r.Written? ==> r.store.readFails == s.readFails && r.store.writeFails == s.writeFails
  {
    if key in s.writeFails then WriteFailed(s.writeFails[key])
    else Written(s.(data := s.data[key := value]))
  }

  /** A successful write is seen by the next readable read of the same key, and
      leaves every other key as it was. */
  lemma WriteThenRead(s: Store, key: string, value: string, other: string)
    requires Write(s, key, value).Written?
    ensures key !in s.readFails ==> Read(Write(s, key, value).store, key) == ReadValue(Some(value))
    ensures other != key ==> Read(Write(s, key, value).store, other) == Read(s, other)
  {
  }
}

=== FILE: ollama.dfy ===
/** The Ollama client (utils/ollama.js): the `/tags` probe and model listing, the
    `/generate` completion call reshaped into the OpenAI completion shape, and the
    folding of a chat into a single prompt. Network results are inputs. */
module Ollama {
  import opened Common
  import opened Responses
  import opened EventLog

  const DefaultModel: string := "llama3.3"

  /** The blank line placed between turns of a flattened chat. */
  const TurnSeparator: string := "\n\n"

  /** The label that asks the model to answer. */
  const AnswerLabel: string := "Assistant:"

  /** The text that ends every flattened chat (`\n\nAssistant:`): a blank line, then the label. */
  const AssistantCue: string := TurnSeparator + AnswerLabel

  /** The body of a `/tags` reply; `models` may be missing. */
  datatype TagsData = TagsData(models: Option<seq<ModelInfo>>)

  /** What `axios.get(.../tags)` produces: a thrown error or a reply. */
  datatype TagsOutcome = TagsThrew(fault: Fault) | TagsReplied(status: int, data: Option<TagsData>)

  /** What `axios.post(.../generate)` produces; the reply's `response` text may be missing. */
  datatype GenerateOutcome = GenerateThrew(fault: Fault) | GenerateReplied(response: Option<string>)

  /** One client call: the prompt sent to `/generate`, what the call returned or
      threw, and the event log afterwards. */
  datatype ClientCall = ClientCall(prompt: string, result: Call<Completion>, log: seq<Event>)

  /** The error thrown when a `/generate` reply has no `response` text and the
      client reads its length. */
  const MissingResponseFault: Fault := Fault("Cannot read properties of undefined (reading 'length')", None)

  /** `checkStatus`: only a 200 reply that carries a `models` field counts as
      connected; anything else, including a thrown error, is false. */
  function CheckStatus(o: TagsOutcome): (connected: bool)
    ensures connected <==> o.TagsReplied? && o.status == 200 && o.data.Some? && o.data.value.models.Some?
  {
    match o
    case TagsThrew(_) => false
    case TagsReplied(status, data) => status == 200 && data.Some? && data.value.models.Some?
  }

  /** `getModels`: the listed models on a recognised success, and `[]` otherwise. */
  function GetModels(o: TagsOutcome): (models: seq<ModelInfo>)
    ensures CheckStatus(o) ==> o.TagsReplied? && o.data.Some? && o.data.value.models == Some(models)
    ensures !CheckStatus(o) ==> models == []
  {
    if o.TagsReplied? && o.status == 200 && o.data.Some? && o.data.value.models.Some?
    then o.data.value.models.value
    else []
  }

  /** A model listing that is not empty came from a successful probe. */
  lemma ListedModelsImplyConnected(o: TagsOutcome)
    ensures GetModels(o) != [] ==> CheckStatus(o)
    ensures o.TagsThrew? ==> GetModels(o) == [] && !CheckStatus(o)
  {
  }

  /** The speaker label of a chat turn: every role but `assistant`, system
      included, is rendered as the user. */
  function RoleLabel(role: string): string
  {
    if role == "assistant" then "Assistant" else "User"
  }

  /** One chat turn flattened to `"<Role>: <content>"`. */
  function Turn(m: ChatMessage): (t: string)
    ensures m.role == "assistant" ==> t == "Assistant: " + m.content
    ensures m.role != "assistant" ==> t == "User: " + m.content
  {
    RoleLabel(m.role) + ": " + m.content
  }

  /** Reads a flattened turn back: whether it is spoken by the assistant, and its content. */
  function ParseTurn(t: string): Option<(bool, string)>
  {
    if StartsWith(t, "Assistant: ") then Some((true, t[11..]))
    else if StartsWith(t, "User: ") then Some((false, t[6..]))
    else None
  }

  /** Flattening keeps the content and whether the speaker was the assistant. */
  lemma TurnRoundTrip(m: ChatMessage)
    ensures ParseTurn(Turn(m)) == Some((m.role == "assistant", m.content))
  {
    var t := Turn(m);
    if m.role != "assistant" {
      assert t[0] == 'U';
      assert !StartsWith(t, "Assistant: ");
      assert t[..6] == "User: ";
    } else {
      assert t[..11] == "Assistant: ";
    }
  }

  /** The turns joined by blank lines (`.map(...).join('\n\n')`). */
  function Conversation(messages: seq<ChatMessage>): string
  {
    if |messages| == 0 then ""
    else if |messages| == 1 then Turn(messages[0])
    else Turn(messages[0]) + TurnSeparator + Conversation(messages[1..])
  }

  /** The prompt `getChatCompletion` sends: the conversation followed by the assistant cue. */
  function ChatPrompt(messages: seq<ChatMessage>): (p: string)
    ensures EndsWith(p, AssistantCue)
    ensures messages == [] ==> p == AssistantCue
    ensures messages != [] ==> StartsWith(p, Turn(messages[0]) + TurnSeparator)
  {
    Conversation(messages) + AssistantCue
  }

  /** An independent description of the prompt: each turn followed by a blank line. */
  function TerminatedTurns(messages: seq<ChatMessage>): string
  {
    if |messages| == 0 then "" else Turn(messages[0]) + TurnSeparator + TerminatedTurns(messages[1..])
  }

  /** For a non-empty chat, the prompt is every turn followed by a blank line and
      then `Assistant:`. */
  lemma ChatPromptTerminatesEveryTurn(messages: seq<ChatMessage>)
    requires messages != []
    ensures ChatPrompt(messages) == TerminatedTurns(messages) + AnswerLabel
  {
    ConversationTerminated(messages);
    AppendAssoc(Conversation(messages), TurnSeparator, AnswerLabel);
  }

  /** A joined conversation plus one more separator is every turn followed by a separator. */
  lemma {:induction false} ConversationTerminated(messages: seq<ChatMessage>)
    requires messages != []
    ensures Conversation(messages) + TurnSeparator == TerminatedTurns(messages)
  {
    var rest := messages[1..];
    if |messages| == 1 {
      assert rest == [];
    } else {
      ConversationTerminated(rest);
      calc {
        Conversation(messages) + TurnSeparator;
        Turn(messages[0]) + TurnSeparator + Conversation(rest) + TurnSeparator;
        Turn(messages[0]) + TurnSeparator + (Conversation(rest) + TurnSeparator);
        Turn(messages[0]) + TurnSeparator + TerminatedTurns(rest);
      }
    }
  }

  /** Appending a turn to a chat appends its flattened form before the cue. */
  lemma {:induction false} ChatPromptAppend(messages: seq<ChatMessage>, m: ChatMessage)
    ensures messages == [] ==> ChatPrompt(messages + [m]) == Turn(m) + AssistantCue
    ensures messages != [] ==> ChatPrompt(messages + [m]) == Conversation(messages) + TurnSeparator + Turn(m) + AssistantCue
  {
    ConversationAppend(messages, m);
  }

  lemma {:induction false} ConversationAppend(messages: seq<ChatMessage>, m: ChatMessage)
    ensures messages == [] ==> Conversation(messages + [m]) == Turn(m)
    ensures messages != [] ==> Conversation(messages + [m]) == Conversation(messages) + TurnSeparator + Turn(m)
  {
    if messages == [] {
      assert messages + [m] == [m];
    } else if |messages| == 1 {
      assert messages + [m] == [messages[0], m];
      assert (messages + [m])[1..] == [m];
    } else {
      var rest := messages[1..];
      assert (messages + [m])[1..] == rest + [m];
      ConversationAppend(rest, m);
    }
  }

  /** A user turn followed by an assistant turn. */
  lemma TwoTurnExample()
    ensures ChatPrompt([ChatMessage("user", "hi"), ChatMessage("assistant", "hello")])
         == "User: hi\n\nAssistant: hello\n\nAssistant:"
  {
    var chat := [ChatMessage("user", "hi"), ChatMessage("assistant", "hello")];
    var first, second := "User: hi", "Assistant: hello";
    assert Turn(chat[0]) == first;
    assert Turn(chat[1]) == second;
    assert chat[1..] == [chat[1]];
    assert Conversation(chat) == first + TurnSeparator + second;
    assert first + TurnSeparator == "User: hi\n\n";
    var conversation := first + TurnSeparator + second;
    assert conversation == "User: hi\n\nAssistant: hello";
    assert conversation + AssistantCue == "User: hi\n\nAssistant: hello\n\nAssistant:";
  }

  /** The reply `getCompletion` builds from the `/generate` text. */
  function TextCompletion(model: string, text: string): Completion
  {
    Completion("text_completion", model, Some([Choice(None, Some(text))]), Some(text))
  }

  /** The reply `getChatCompletion` builds from the `/generate` text. */
  function ChatCompletion(model: string, text: string): Completion
  {
    Completion("chat.completion", model, Some([Choice(Some(Reply("assistant", Some(text))), None)]), None)
  }

  /** Shared tail of both calls: the request event is already built; record it,
      then the reply or the error, and re-throw errors. */
  function Exchange(log: seq<Event>, prompt: string, request: EventData, outcome: GenerateOutcome,
                    reshape: string -> Completion): (r: ClientCall)
    ensures r.prompt == prompt
    ensures outcome.GenerateThrew? ==> r.result == Threw(outcome.fault)
    ensures outcome == GenerateReplied(None) ==> r.result == Threw(MissingResponseFault)
    ensures outcome.GenerateReplied? && outcome.response.Some? ==> r.result == Returned(reshape(outcome.response.value))
    ensures |r.log| == if |log| + 2 < MaxEvents then |log| + 2 else MaxEvents
    ensures r.log[1] == Event(Request, request)
    ensures r.result.Returned? ==> r.log[0] == Event(Response, ResponseBody(r.result.value))
    ensures r.result.Threw? ==> r.log[0] == Event(Error, ErrorDetails(r.result.fault))
    ensures r.log[2..] == log[..|r.log| - 2]
  {
    var requestEvent := Event(Request, request);
    var afterRequest := Record(log, requestEvent);
    var r := match outcome
      case GenerateThrew(f) => ClientCall(prompt, Threw(f), Record(afterRequest, Event(Error, ErrorDetails(f))))
      case GenerateReplied(None) =>
        ClientCall(prompt, Threw(MissingResponseFault), Record(afterRequest, Event(Error, ErrorDetails(MissingResponseFault))))
      case GenerateReplied(Some(text)) =>
        var body := reshape(text);
        ClientCall(prompt, Returned(body), Record(afterRequest, Event(Response, ResponseBody(body))));
    RecordPair(log, requestEvent, r.log[0]);
    r
  }

  /** `getCompletion`: one `/generate` call for a plain prompt. */
  function GetCompletion(log: seq<Event>, prompt: string, model: string, maxTokens: int,
                         outcome: GenerateOutcome): (r: ClientCall)
    ensures r.prompt == prompt
    ensures r.result.Returned? <==> outcome.GenerateReplied? && outcome.response.Some?
    ensures r.result.Returned? ==> r.result.value.model == model && r.result.value.response == outcome.response
    ensures outcome.GenerateReplied? && outcome.response.Some? ==>
              r.result == Returned(TextCompletion(model, outcome.response.value))
    ensures outcome.GenerateThrew? ==> r.result == Threw(outcome.fault)
    ensures |r.log| == if |log| + 2 < MaxEvents then |log| + 2 else MaxEvents
    ensures r.log[1] == Event(Request, PromptRequest(model, prompt, maxTokens, None))
    ensures r.result.Returned? ==> r.log[0] == Event(Response, ResponseBody(r.result.value))
    ensures r.result.Threw? ==> r.log[0] == Event(Error, ErrorDetails(r.result.fault))
    ensures r.log[2..] == log[..|r.log| - 2]
  {
    Exchange(log, prompt, PromptRequest(model, prompt, maxTokens, None), outcome, text => TextCompletion(model, text))
  }

  /** `getChatCompletion`: the chat is flattened into one prompt and sent to `/generate`. */
  function GetChatCompletion(log: seq<Event>, messages: seq<ChatMessage>, model: string, maxTokens: int,
                             outcome: GenerateOutcome): (r: ClientCall)
    ensures r.prompt == ChatPrompt(messages)
    ensures r.result.Returned? <==> outcome.GenerateReplied? && outcome.response.Some?
    ensures r.result.Returned? ==> r.result.value.model == model
    ensures outcome.GenerateReplied? && outcome.response.Some? ==>
              r.result == Returned(ChatCompletion(model, outcome.response.value))
    ensures outcome.GenerateThrew? ==> r.result == Threw(outcome.fault)
    ensures |r.log| == if |log| + 2 < MaxEvents then |log| + 2 else MaxEvents
    ensures r.log[1] == Event(Request, MessagesRequest(model, messages, maxTokens))
    ensures r.result.Returned? ==> r.log[0] == Event(Response, ResponseBody(r.result.value))
    ensures r.result.Threw? ==> r.log[0] == Event(Error, ErrorDetails(r.result.fault))
    ensures r.log[2..] == log[..|r.log| - 2]
  {
    Exchange(log, ChatPrompt(messages), MessagesRequest(model, messages, maxTokens), outcome, text => ChatCompletion(model, text))
  }
}

=== FILE: openai.dfy ===
/** The OpenAI client (utils/openai.js): credential resolution with its one-shot
    "logged" flag, the `listModels` status probe, and the choice between the chat
    and the legacy completion request. The store read, the environment and the
    SDK's results are inputs. */
module OpenAi {
  import opened Common
  import opened Responses
  import opened KvStore
  import opened EventLog

  /** The store key holding the operator's API key. */
  const ApiKeyStoreKey: string := "settings:openai:api_key"

  const DefaultModel: string := "gpt-3.5-turbo"
  const DefaultMaxTokens: int := 100

  /** `process.env.OPENAI_API_KEY || process.env.API_KEY || ''` */
  function EnvApiKey(env: Env): (key: string)
    ensures Truthy(EnvGet(env, "OPENAI_API_KEY")) ==> key == env["OPENAI_API_KEY"]
    ensures !Truthy(EnvGet(env, "OPENAI_API_KEY")) && Truthy(EnvGet(env, "API_KEY")) ==> key == env["API_KEY"]
    ensures !Truthy(EnvGet(env, "OPENAI_API_KEY")) && !Truthy(EnvGet(env, "API_KEY")) ==> key == ""
  {
    OrElse(EnvGet(env, "OPENAI_API_KEY"), OrElse(EnvGet(env, "API_KEY"), ""))
  }

  /** The resolved key and the new value of `apiKeyMessageLogged`. */
  datatype KeyResolution = KeyResolution(key: string, logged: bool)

  /** `getApiKey`: the stored key when it is non-empty, otherwise the environment
      fallback; a failed store read also falls back, silently. It never throws. */
  function GetApiKey(stored: ReadResult, env: Env, logged: bool): (r: KeyResolution)
    ensures stored.ReadValue? && Truthy(stored.value) ==> r.key == stored.value.value
    ensures !(stored.ReadValue? && Truthy(stored.value)) ==> r.key == EnvApiKey(env)
    ensures r.logged <==> logged || (stored.ReadValue? && r.key != "")
  {
    match stored
    case ReadThrew => KeyResolution(EnvApiKey(env), logged)
    case ReadValue(v) =>
      if Truthy(v) then KeyResolution(v.value, true)
      else
        var fallback := EnvApiKey(env);
        KeyResolution(fallback, logged || fallback != "")
  }

  /** The resolved key is empty exactly when no source holds a non-empty key. */
  lemma EmptyKeyMeansNoSource(stored: ReadResult, env: Env, logged: bool)
    ensures GetApiKey(stored, env, logged).key == "" <==>
              (!(stored.ReadValue? && Truthy(stored.value))
               && !Truthy(EnvGet(env, "OPENAI_API_KEY")) && !Truthy(EnvGet(env, "API_KEY")))
  {
  }

  /** The flag only ever goes from false to true, and resolving again with the same
      inputs changes neither the key nor the flag. */
  lemma LoggedFlagIsOneShot(stored: ReadResult, env: Env, logged: bool)
    ensures logged ==> GetApiKey(stored, env, logged).logged
    ensures !logged && GetApiKey(stored, env, logged).logged ==> GetApiKey(stored, env, logged).key != ""
    ensures GetApiKey(stored, env, GetApiKey(stored, env, logged).logged) == GetApiKey(stored, env, logged)
  {
  }

  /** What `checkStatus` observed: whether the API is reachable, whether
      `listModels` was called at all, and the flag afterwards. */
  datatype StatusCheck = StatusCheck(accessible: bool, listModelsCalled: bool, logged: bool)

  /** `checkStatus`: the client is refreshed (one key resolution), the key is
      resolved again, and without a key the probe is skipped. `listModelsSucceeds`
      is whether the SDK call would return rather than throw. */
  function CheckStatus(stored: ReadResult, env: Env, logged: bool, listModelsSucceeds: bool): (r: StatusCheck)
    ensures r.listModelsCalled <==> GetApiKey(stored, env, logged).key != ""
    ensures r.accessible <==> r.listModelsCalled && listModelsSucceeds
    ensures r.logged == GetApiKey(stored, env, logged).logged
  {
    var refreshed := GetApiKey(stored, env, logged);
    var resolved := GetApiKey(stored, env, refreshed.logged);
    LoggedFlagIsOneShot(stored, env, logged);
    if resolved.key == "" then StatusCheck(false, false, resolved.logged)
    else StatusCheck(listModelsSucceeds, true, resolved.logged)
  }

  /** The chat endpoint serves every model whose name mentions gpt-3.5 or gpt-4. */
  predicate UsesChatShape(model: string)
  {
    Contains(model, "gpt-3.5") || Contains(model, "gpt-4")
  }

  /** The request handed to the SDK. */
  datatype ApiRequest =
    | ChatRequest(model: string, messages: seq<ChatMessage>, maxTokens: int)
    | LegacyRequest(model: string, prompt: string, maxTokens: int)

  /** One `getCompletion` call: the request sent, what the call returned or threw,
      the event log and the credential flag afterwards. */
  datatype ClientCall = ClientCall(request: ApiRequest, result: Call<Completion>, log: seq<Event>, logged: bool)

  function BuildRequest(prompt: string, model: string, maxTokens: int): (req: ApiRequest)
    ensures req.ChatRequest? <==> UsesChatShape(model)
    ensures req.ChatRequest? ==> req.messages == [ChatMessage("user", prompt)]
    ensures req.LegacyRequest? ==> req.prompt == prompt
    ensures req.model == model && req.maxTokens == maxTokens
  {
    if UsesChatShape(model) then ChatRequest(model, [ChatMessage("user", prompt)], maxTokens)
    else LegacyRequest(model, prompt, maxTokens)
  }

  /** `getCompletion`: refresh the client, pick the request shape from the model
      name, record the tagged request, then the reply or the error, and re-throw
      errors. `outcome` is what the SDK call returns (`response.data`) or throws. */
  function GetCompletion(log: seq<Event>, prompt: string, model: string, maxTokens: int,
                         stored: ReadResult, env: Env, logged: bool, outcome: Call<Completion>): (r: ClientCall)
    ensures r.request.ChatRequest? <==> UsesChatShape(model)
    ensures r.request.ChatRequest? ==> r.request.messages == [ChatMessage("user", prompt)]
    ensures r.request.LegacyRequest? ==> r.request.prompt == prompt
    ensures r.request.model == model && r.request.maxTokens == maxTokens
    ensures r.result == outcome
    ensures |r.log| == if |log| + 2 < MaxEvents then |log| + 2 else MaxEvents
    ensures r.log[1] == Event(Request, PromptRequest(model, prompt, maxTokens,
                                Some(if r.request.ChatRequest? then ChatTag else CompletionTag)))
    ensures outcome.Returned? ==> r.log[0] == Event(Response, ResponseBody(outcome.value))
    ensures outcome.Threw? ==> r.log[0] == Event(Error, ErrorDetails(outcome.fault))
    ensures r.log[2..] == log[..|r.log| - 2]
    ensures r.logged == GetApiKey(stored, env, logged).logged
  {
    var refreshed := GetApiKey(stored, env, logged);
    var request := BuildRequest(prompt, model, maxTokens);
    var tag := if request.ChatRequest? then ChatTag else CompletionTag;
    var requested := Event(Request, PromptRequest(model, prompt, maxTokens, Some(tag)));
    var finished := match outcome
      case Returned(body) => Event(Response, ResponseBody(body))
      case Threw(f) => Event(Error, ErrorDetails(f));
    RecordPair(log, requested, finished);
    ClientCall(request, outcome, Record(Record(log, requested), finished), refreshed.logged)
  }

  /** A string without the first character of `sub` does not contain `sub`. */
  lemma {:induction false} MissingFirstCharNotContained(s: string, sub: string)
    requires |sub| > 0
    requires forall i :: 0 <= i < |s| ==> s[i] != sub[0]
    ensures !Contains(s, sub)
  {
    if |s| > 0 {
      assert !StartsWith(s, sub) by {
        if |sub| <= |s| {
          assert s[..|sub|][0] == s[0];
        }
      }
      MissingFirstCharNotContained(s[1..], sub);
    }
  }

  /** The default model takes the chat shape; a legacy model name the prompt shape. */
  lemma ShapeExamples()
    ensures UsesChatShape(DefaultModel)
    ensures UsesChatShape("gpt-4o")
    ensures !UsesChatShape("text-davinci-003")
  {
    assert StartsWith(DefaultModel, "gpt-3.5");
    assert StartsWith("gpt-4o", "gpt-4");
    MissingFirstCharNotContained("text-davinci-003", "gpt-3.5");
    MissingFirstCharNotContained("text-davinci-003", "gpt-4");
  }
}

=== FILE: responses.dfy ===
/** The canonical completion shape both provider clients hand back to their callers
    (the OpenAI response body; the Ollama client reshapes its replies into it). */
module Responses {
  import opened Common

  /** One turn of a chat conversation, `{role, content}`. */
  datatype ChatMessage = ChatMessage(role: string, content: string)

  /** One entry of a model listing, `{name}`. */
  datatype ModelInfo = ModelInfo(name: string)

  /** `choices[i].message`: its `content` may be null in an OpenAI reply. */
  datatype Reply = Reply(role: string, content: Option<string>)

  /** `choices[i]`: a chat choice carries `message`, a legacy one `text`. */
  datatype Choice = Choice(message: Option<Reply>, text: Option<string>)

  /** A completion body, reduced to the fields the console reads: `object`,
      `model`, `choices` (which may be missing) and `response`, the extra top-level
      text field the Ollama client adds to plain completions. The `id`, `created`
      and `usage` fields and each choice's `index` and `finish_reason` are not kept. */
  datatype Completion = Completion(object: string, model: string, choices: Option<seq<Choice>>, response: Option<string>)
}

=== FILE: settings.dfy ===
/** The settings page (routes/settings.js): the display mask for the stored key,
    the page shown on GET with its defaults, and the decision table of the POST
    that saves the provider selection and reports a flash message. The store, the
    environment and the provider probes are inputs. */
module Settings {
  import opened Common
  import opened Responses
  import opened KvStore
  import OpenAi
  import Ollama

  const OpenAiModelKey: string := "settings:openai:model"
  const ProviderKey: string := "settings:llm:provider"
  const OllamaModelKey: string := "settings:ollama:model"

  const DefaultProvider: string := "openai"

  const SavedText: string := "Settings saved successfully."
  const ClearedText: string := "API key cleared from settings. Using API key from .env file if available."
  const ConnectedSuffix: string := " Connection successful!"
  const NoKeyText: string := "No OpenAI API key found in settings or environment variables. This is required for OpenAI provider."
  const OpenAiFailedText: string := "Settings saved but OpenAI connection test failed. Check your API key."
  const OllamaFailedText: string := "Settings saved but Ollama connection failed. Is Ollama running?"

  function ModelMissingText(model: string): string
  {
    "Settings saved but model '" + model + "' was not found in Ollama. You may need to pull it first."
  }

  function SaveErrorAlert(message: string): Alert
  {
    Alert(Danger, "Error saving settings: " + message)
  }

  /** `maskApiKey`: nothing for a key shorter than 8 characters; otherwise the
      first and last four characters with a star for each one in between. */
  function MaskApiKey(key: string): (m: string)
    ensures |key| < 8 ==> m == ""
    ensures |key| >= 8 ==> |m| == |key| && m[..4] == key[..4] && m[|key| - 4..] == key[|key| - 4..]
    ensures |key| >= 8 ==> forall i :: 4 <= i < |key| - 4 ==> m[i] == '*'
  {
    if |key| < 8 then "" else key[..4] + Repeat('*', |key| - 8) + key[|key| - 4..]
  }

  /** The mask depends on nothing but the length and the first and last four characters. */
  lemma MaskRevealsOnlyEnds(a: string, b: string)
    requires |a| == |b|
    requires |a| >= 8 ==> a[..4] == b[..4] && a[|a| - 4..] == b[|b| - 4..]
    ensures MaskApiKey(a) == MaskApiKey(b)
  {
  }

  /** A form field with a destructuring default: only a missing field takes the default. */
  function FormValue(v: Option<string>, default: string): string
  {
    if v.Some? then v.value else default
  }

  /** What the GET handler renders. */
  datatype SettingsPage = SettingsPage(
    openAiApiKey: string, openAiModel: string, openAiStatus: bool, redisStatus: bool,
    ollamaStatus: bool, ollamaModel: string, llmProvider: string, availableOllamaModels: seq<ModelInfo>)

  /** What a GET produces: the rendered page, and the credential flag after the
      OpenAI status check it runs. */
  datatype SettingsView = SettingsView(page: SettingsPage, keyLogged: bool)

  /** GET: the OpenAI status check, stored values with their defaults, the masked
      key, the Ollama probe results, and an Ollama model list that falls back to
      the configured model. `listModelsSucceeds` is the outcome of the SDK's
      `listModels` should the status check call it. */
  function SettingsGet(store: Store, env: Env, logged: bool, redisUp: bool, listModelsSucceeds: bool,
                       statusTags: Ollama.TagsOutcome, modelsTags: Ollama.TagsOutcome): (r: SettingsView)
    ensures r.page.openAiStatus <==>
              OpenAi.GetApiKey(Read(store, OpenAi.ApiKeyStoreKey), env, logged).key != "" && listModelsSucceeds
    ensures r.keyLogged == OpenAi.GetApiKey(Read(store, OpenAi.ApiKeyStoreKey), env, logged).logged
    ensures r.page.redisStatus == redisUp
    ensures !Truthy(Get(store, OpenAiModelKey)) ==> r.page.openAiModel == OpenAi.DefaultModel
    ensures !Truthy(Get(store, ProviderKey)) ==> r.page.llmProvider == DefaultProvider
    ensures !Truthy(Get(store, OllamaModelKey)) ==> r.page.ollamaModel == Ollama.DefaultModel
    ensures Truthy(Get(store, OpenAiModelKey)) ==> r.page.openAiModel == store.data[OpenAiModelKey]
    ensures Truthy(Get(store, ProviderKey)) ==> r.page.llmProvider == store.data[ProviderKey]
    ensures Truthy(Get(store, OllamaModelKey)) ==> r.page.ollamaModel == store.data[OllamaModelKey]
    ensures r.page.availableOllamaModels != []
    ensures r.page.ollamaStatus && Ollama.GetModels(modelsTags) != [] ==> r.page.availableOllamaModels == Ollama.GetModels(modelsTags)
    ensures !r.page.ollamaStatus || Ollama.GetModels(modelsTags) == [] ==> r.page.availableOllamaModels == [ModelInfo(r.page.ollamaModel)]
    ensures r.page.ollamaStatus == Ollama.CheckStatus(statusTags)
    ensures r.page.openAiApiKey == MaskApiKey(OrElse(Get(store, OpenAi.ApiKeyStoreKey), ""))
  {
    var openAi := OpenAi.CheckStatus(Read(store, OpenAi.ApiKeyStoreKey), env, logged, listModelsSucceeds);
    var ollamaUp := Ollama.CheckStatus(statusTags);
    var listed := if ollamaUp then Ollama.GetModels(modelsTags) else [];
    var storedKey := OrElse(Get(store, OpenAi.ApiKeyStoreKey), "");
    var ollamaModel := OrElse(Get(store, OllamaModelKey), Ollama.DefaultModel);
    var page := SettingsPage(
      if storedKey != "" then MaskApiKey(storedKey) else storedKey,
      OrElse(Get(store, OpenAiModelKey), OpenAi.DefaultModel),
      openAi.accessible, redisUp, ollamaUp, ollamaModel,
      OrElse(Get(store, ProviderKey), DefaultProvider),
      if |listed| == 0 then [ModelInfo(ollamaModel)] else listed);
    SettingsView(page, openAi.logged)
  }

  /** The submitted form; a field is `None` when it was not posted. */
  datatype SettingsForm = SettingsForm(
    openAiApiKey: Option<string>, openAiModel: Option<string>, ollamaModel: Option<string>, llmProvider: Option<string>)

  /** The outcomes of the provider calls a save may make: whether the OpenAI
      `listModels` call succeeds, and the two Ollama `/tags` replies (status probe,
      then model listing). */
  datatype Probes = Probes(listModelsSucceeds: bool, statusTags: Ollama.TagsOutcome, modelsTags: Ollama.TagsOutcome)

  /** The store, the environment and the credential flag after a save, the OpenAI
      status check if one ran, and the flash message shown after the redirect. */
  datatype SaveResult = SaveResult(store: Store, env: Env, keyLogged: bool, probe: Option<OpenAi.StatusCheck>, flash: Alert)

  predicate ModelListed(models: seq<ModelInfo>, name: string)
  {
    exists i :: 0 <= i < |models| && models[i].name == name
  }

  /** The key the OpenAI branch believes is in effect when it reports a failed test. */
  function CurrentKey(submitted: Option<string>, store: Store): string
  {
    match submitted
    case Some(k) => if !IsBlank(k) then k else ""
    case None => OrElse(Get(store, OpenAi.ApiKeyStoreKey), "")
  }

  /** The OpenAI connection test and the message it leads to. `current` is the key
      the handler believes is in effect; `note` the message about a cleared key. */
  function FinishOpenAi(store: Store, env: Env, logged: bool, listModelsSucceeds: bool,
                        current: Option<string>, note: Option<string>): (r: SaveResult)
    ensures r.store == store && r.env == env
    ensures r.flash.kind != Danger
    ensures r.probe.Some? && r.keyLogged == r.probe.value.logged
    ensures r.probe.value.accessible <==> r.probe.value.listModelsCalled && listModelsSucceeds
    ensures !r.probe.value.accessible ==> r.flash == Alert(Warning, if Truthy(current) then OpenAiFailedText else NoKeyText)
    ensures r.probe.value.accessible && note.None? ==> r.flash == Alert(Success, SavedText)
    ensures r.probe.value.accessible && note.Some? ==> r.flash == Alert(Info, note.value + ConnectedSuffix)
  {
    var status := OpenAi.CheckStatus(Read(store, OpenAi.ApiKeyStoreKey), env, logged, listModelsSucceeds);
    var flash :=
      if status.accessible then
        (if note.Some? then Alert(Info, note.value + ConnectedSuffix) else Alert(Success, SavedText))
      else if !Truthy(current) then Alert(Warning, NoKeyText)
      else Alert(Warning, OpenAiFailedText);
    SaveResult(store, env, status.logged, Some(status), flash)
  }

  /** The OpenAI branch: store a submitted key, or clear the stored one when the
      submitted key is blank, then test the connection. */
  function SaveOpenAi(submitted: Option<string>, store: Store, env: Env, logged: bool, listModelsSucceeds: bool): (r: SaveResult)
    ensures r.flash.kind == Danger || submitted.None? ==> r.store == store && r.env == env
    ensures r.flash.kind != Danger && submitted.Some? && !IsBlank(submitted.value) ==>
              r.store.data == store.data[OpenAi.ApiKeyStoreKey := submitted.value]
              && r.env == env["OPENAI_API_KEY" := submitted.value]
    ensures r.flash.kind != Danger && submitted.Some? && IsBlank(submitted.value) ==>
              r.store.data == store.data[OpenAi.ApiKeyStoreKey := ""] && r.env == env - {"OPENAI_API_KEY"}
    ensures r.store.readFails == store.readFails
    ensures r.flash.kind == Danger <==> submitted.Some? && OpenAi.ApiKeyStoreKey in store.writeFails
    ensures r.keyLogged == (if r.probe.Some? then r.probe.value.logged else logged)
    ensures r.flash.kind != Danger ==> r.probe.Some?
    ensures r.flash.kind != Danger && !listModelsSucceeds ==>
              r.flash == Alert(Warning, if CurrentKey(submitted, store) == "" then NoKeyText else OpenAiFailedText)
    ensures r.flash.kind != Danger && listModelsSucceeds && CurrentKey(submitted, store) != "" ==>
              r.flash == Alert(Success, SavedText)
    ensures r.probe.Some? ==>
              r.probe.value == OpenAi.CheckStatus(Read(r.store, OpenAi.ApiKeyStoreKey), r.env, logged, listModelsSucceeds)
    ensures r.flash.kind != Danger && !r.probe.value.accessible ==>
              r.flash == Alert(Warning, if CurrentKey(submitted, store) == "" then NoKeyText else OpenAiFailedText)
    ensures r.flash.kind != Danger && r.probe.value.accessible && !(submitted.Some? && IsBlank(submitted.value)) ==>
              r.flash == Alert(Success, SavedText)
  {
    var current := Get(store, OpenAi.ApiKeyStoreKey);
    match submitted
    case None => FinishOpenAi(store, env, logged, listModelsSucceeds, current, None)
    case Some(k) =>
      // `k && k.trim() !== ''`: a non-blank string is never empty.
      if !IsBlank(k) then
        var w := Write(store, OpenAi.ApiKeyStoreKey, k);
        if w.WriteFailed? then SaveResult(store, env, logged, None, SaveErrorAlert(w.message))
        else FinishOpenAi(w.store, env["OPENAI_API_KEY" := k], logged, listModelsSucceeds, Some(k), None)
      else
        var w := Write(store, OpenAi.ApiKeyStoreKey, "");
        if w.WriteFailed? then SaveResult(store, env, logged, None, SaveErrorAlert(w.message))
        else
          // Deleting the variable leaves `currentApiKey` as `undefined || ''`.
          FinishOpenAi(w.store, env - {"OPENAI_API_KEY"}, logged, listModelsSucceeds, Some(""), Some(ClearedText))
  }

  /** The Ollama branch: test the connection, then look the chosen model up. */
  function OllamaAlert(model: string, statusTags: Ollama.TagsOutcome, modelsTags: Ollama.TagsOutcome): Alert
  {
    if !Ollama.CheckStatus(statusTags) then Alert(Warning, OllamaFailedText)
    else if !ModelListed(Ollama.GetModels(modelsTags), model) then Alert(Warning, ModelMissingText(model))
    else Alert(Success, SavedText)
  }

  function SelectedProvider(form: SettingsForm): string { FormValue(form.llmProvider, DefaultProvider) }
  function SelectedOpenAiModel(form: SettingsForm): string { FormValue(form.openAiModel, OpenAi.DefaultModel) }
  function SelectedOllamaModel(form: SettingsForm): string { FormValue(form.ollamaModel, Ollama.DefaultModel) }

  /** Which writes of a save the store would refuse; any of them ends the save
      with a danger message. */
  predicate SaveWriteFails(form: SettingsForm, store: Store)
  {
    || ProviderKey in store.writeFails
    || OpenAiModelKey in store.writeFails
    || OllamaModelKey in store.writeFails
    || (SelectedProvider(form) == "openai" && form.openAiApiKey.Some? && OpenAi.ApiKeyStoreKey in store.writeFails)
  }

  /** The store after the selection writes, and the message of the write that
      failed, if one did. */
  datatype SelectionWrite = SelectionWrite(store: Store, failure: Option<string>)

  /** The three selection writes of a save, in order (provider, OpenAI model, Ollama
      model); the first refused write stops the others. */
  function WriteSelection(store: Store, provider: string, openAiModel: string, ollamaModel: string): (w: SelectionWrite)
    ensures w.store.readFails == store.readFails && w.store.writeFails == store.writeFails
    ensures ProviderKey in store.writeFails ==>
              w == SelectionWrite(store, Some(store.writeFails[ProviderKey]))
    ensures ProviderKey !in store.writeFails && OpenAiModelKey in store.writeFails ==>
              w.store.data == store.data[ProviderKey := provider]
              && w.failure == Some(store.writeFails[OpenAiModelKey])
    ensures ProviderKey !in store.writeFails && OpenAiModelKey !in store.writeFails && OllamaModelKey in store.writeFails ==>
              w.store.data == store.data[ProviderKey := provider][OpenAiModelKey := openAiModel]
              && w.failure == Some(store.writeFails[OllamaModelKey])
    ensures w.failure.None? <==>
              ProviderKey !in store.writeFails && OpenAiModelKey !in store.writeFails && OllamaModelKey !in store.writeFails
    ensures w.failure.None? ==>
              w.store.data == store.data[ProviderKey := provider][OpenAiModelKey := openAiModel][OllamaModelKey := ollamaModel]
  {
    var w1 := Write(store, ProviderKey, provider);
    if w1.WriteFailed? then SelectionWrite(store, Some(w1.message))
    else
      var w2 := Write(w1.store, OpenAiModelKey, openAiModel);
      if w2.WriteFailed? then SelectionWrite(w1.store, Some(w2.message))
      else
        var w3 := Write(w2.store, OllamaModelKey, ollamaModel);
        if w3.WriteFailed? then SelectionWrite(w2.store, Some(w3.message))
        else SelectionWrite(w3.store, None)
  }

  /** Whether the store would refuse one of the three selection writes. */
  predicate SelectionWriteFails(store: Store)
  {
    ProviderKey in store.writeFails || OpenAiModelKey in store.writeFails || OllamaModelKey in store.writeFails
  }

  /** The store's data and the environment both hold the selection of `form`. */
  predicate HoldsSelection(data: map<string, string>, env: Env, form: SettingsForm)
  {
    && ProviderKey in data && data[ProviderKey] == SelectedProvider(form)
    && OpenAiModelKey in data && data[OpenAiModelKey] == SelectedOpenAiModel(form)
    && OllamaModelKey in data && data[OllamaModelKey] == SelectedOllamaModel(form)
    && "LLM_PROVIDER" in env && env["LLM_PROVIDER"] == SelectedProvider(form)
    && "OPENAI_MODEL" in env && env["OPENAI_MODEL"] == SelectedOpenAiModel(form)
    && "OLLAMA_MODEL" in env && env["OLLAMA_MODEL"] == SelectedOllamaModel(form)
  }

  /** The OpenAI branch touches only the key, in the store and in the environment,
      so a selection held before it is held after it. */
  lemma OpenAiKeepsSelection(form: SettingsForm, store: Store, env: Env, logged: bool, listModelsSucceeds: bool)
    ensures var r := SaveOpenAi(form.openAiApiKey, store, env, logged, listModelsSucceeds);
      HoldsSelection(store.data, env, form) ==> HoldsSelection(r.store.data, r.env, form)
  {
    var r := SaveOpenAi(form.openAiApiKey, store, env, logged, listModelsSucceeds);
    if HoldsSelection(store.data, env, form) && r.flash.kind != Danger && form.openAiApiKey.Some? && IsBlank(form.openAiApiKey.value) {
      assert "LLM_PROVIDER" in r.env && "OPENAI_MODEL" in r.env && "OLLAMA_MODEL" in r.env;
    }
  }

  /** The environment after a save's selection writes succeed. */
  function SelectionEnv(env: Env, form: SettingsForm): Env
  {
    env["LLM_PROVIDER" := SelectedProvider(form)]["OPENAI_MODEL" := SelectedOpenAiModel(form)]["OLLAMA_MODEL" := SelectedOllamaModel(form)]
  }

  /** The branch of the selected provider, run once the selection is written. */
  function SaveForProvider(form: SettingsForm, store: Store, env: Env, logged: bool, probes: Probes): (r: SaveResult)
    ensures r.flash.kind == Danger <==>
              SelectedProvider(form) == "openai" && form.openAiApiKey.Some? && OpenAi.ApiKeyStoreKey in store.writeFails
    ensures r.probe.Some? ==> SelectedProvider(form) == "openai"
    ensures r.keyLogged == (if r.probe.Some? then r.probe.value.logged else logged)
    ensures r.store.readFails == store.readFails
    ensures HoldsSelection(store.data, env, form) ==> HoldsSelection(r.store.data, r.env, form)
  {
    if SelectedProvider(form) == "openai" then
      OpenAiKeepsSelection(form, store, env, logged, probes.listModelsSucceeds);
      SaveOpenAi(form.openAiApiKey, store, env, logged, probes.listModelsSucceeds)
    else if SelectedProvider(form) == "ollama" then
      SaveResult(store, env, logged, None, OllamaAlert(SelectedOllamaModel(form), probes.statusTags, probes.modelsTags))
    else SaveResult(store, env, logged, None, Alert(Success, SavedText))
  }

  /** POST: write the provider and both model names, mirror them into the
      environment, then run the branch of the selected provider. */
  function SaveSettings(form: SettingsForm, store: Store, env: Env, logged: bool, probes: Probes): (r: SaveResult)
    ensures r.flash.kind == Danger <==> SaveWriteFails(form, store)
    ensures ProviderKey in store.writeFails ==> r == SaveResult(store, env, logged, None, SaveErrorAlert(store.writeFails[ProviderKey]))
    ensures SelectionWriteFails(store) ==> r.env == env && r.keyLogged == logged && r.probe.None? && r.flash.kind == Danger
    ensures r.probe.Some? ==> SelectedProvider(form) == "openai"
    ensures r.keyLogged == (if r.probe.Some? then r.probe.value.logged else logged)
    ensures r.store.readFails == store.readFails
    ensures !SelectionWriteFails(store) ==> HoldsSelection(r.store.data, r.env, form)
  {
    var w := WriteSelection(store, SelectedProvider(form), SelectedOpenAiModel(form), SelectedOllamaModel(form));
    if w.failure.Some? then SaveResult(w.store, env, logged, None, SaveErrorAlert(w.failure.value))
    else
      var env' := SelectionEnv(env, form);
      assert HoldsSelection(w.store.data, env', form);
      SaveForProvider(form, w.store, env', logged, probes)
  }

  /** The selection writes run in order: a failing provider write changes nothing,
      and a failing OpenAI-model write leaves only the provider written. */
  lemma SaveWritesInOrder(form: SettingsForm, store: Store, env: Env, logged: bool, probes: Probes)
    ensures var r := SaveSettings(form, store, env, logged, probes);
      ProviderKey !in store.writeFails && OpenAiModelKey in store.writeFails ==>
        r.store.data == store.data[ProviderKey := SelectedProvider(form)]
        && r.flash == SaveErrorAlert(store.writeFails[OpenAiModelKey])
  {
  }

  /** Once the selection writes succeed, the store and the environment hold the
      selection whatever the provider branch does next. */
  lemma SaveKeepsSelection(form: SettingsForm, store: Store, env: Env, logged: bool, probes: Probes)
    requires !SelectionWriteFails(store)
    ensures var r := SaveSettings(form, store, env, logged, probes);
        && r.store.data[ProviderKey] == SelectedProvider(form)
        && r.store.data[OpenAiModelKey] == SelectedOpenAiModel(form)
        && r.store.data[OllamaModelKey] == SelectedOllamaModel(form)
        && r.env["LLM_PROVIDER"] == SelectedProvider(form)
        && r.env["OPENAI_MODEL"] == SelectedOpenAiModel(form)
        && r.env["OLLAMA_MODEL"] == SelectedOllamaModel(form)
  {
  }

  /** The settings page read back after a successful save, in the environment and
      with the credential flag the save left, shows the saved provider and models. A field posted as the empty string is stored as such, and the page
      shows its default in its place; a field not posted at all was saved as its
      default already. A key whose read fails is shown as its default too. */
  lemma GetAfterSave(form: SettingsForm, store: Store, env: Env, logged: bool, probes: Probes,
                     redisUp: bool, listModelsSucceeds: bool, statusTags: Ollama.TagsOutcome, modelsTags: Ollama.TagsOutcome)
    requires !SaveWriteFails(form, store)
    ensures var saved := SaveSettings(form, store, env, logged, probes);
      var page := SettingsGet(saved.store, saved.env, saved.keyLogged, redisUp, listModelsSucceeds, statusTags, modelsTags).page;
      && (ProviderKey !in store.readFails ==>
            page.llmProvider == if SelectedProvider(form) != "" then SelectedProvider(form) else DefaultProvider)
      && (OpenAiModelKey !in store.readFails ==>
            page.openAiModel == if SelectedOpenAiModel(form) != "" then SelectedOpenAiModel(form) else OpenAi.DefaultModel)
      && (OllamaModelKey !in store.readFails ==>
            page.ollamaModel == if SelectedOllamaModel(form) != "" then SelectedOllamaModel(form) else Ollama.DefaultModel)
      && (form.llmProvider.None? && ProviderKey !in store.readFails ==> page.llmProvider == DefaultProvider)
  {
    var saved := SaveSettings(form, store, env, logged, probes).store;
    SaveKeepsSelection(form, store, env, logged, probes);
    assert ProviderKey !in store.readFails ==> Get(saved, ProviderKey) == Some(SelectedProvider(form));
    assert OpenAiModelKey !in store.readFails ==> Get(saved, OpenAiModelKey) == Some(SelectedOpenAiModel(form));
    assert OllamaModelKey !in store.readFails ==> Get(saved, OllamaModelKey) == Some(SelectedOllamaModel(form));
  }

  /** Once the selection writes succeed, a save is the provider branch run on the
      written store, which answers reads of the API key as before. */
  lemma SaveRunsProvider(form: SettingsForm, store: Store, env: Env, logged: bool, probes: Probes)
    requires !SelectionWriteFails(store)
    ensures var w := WriteSelection(store, SelectedProvider(form), SelectedOpenAiModel(form), SelectedOllamaModel(form));
      && SaveSettings(form, store, env, logged, probes) == SaveForProvider(form, w.store, SelectionEnv(env, form), logged, probes)
      && Read(w.store, OpenAi.ApiKeyStoreKey) == Read(store, OpenAi.ApiKeyStoreKey)
      && w.store.writeFails == store.writeFails
  {
  }


  /** OpenAI provider: a failed test warns about a missing key exactly when no key
      is in effect, and about the connection otherwise; with a key in effect and a
      working API the save succeeds. */
  lemma SaveOpenAiDecision(form: SettingsForm, store: Store, env: Env, logged: bool, probes: Probes)
    requires SelectedProvider(form) == "openai" && !SaveWriteFails(form, store)
    ensures var r := SaveSettings(form, store, env, logged, probes);
      !probes.listModelsSucceeds ==>
        r.flash == Alert(Warning, if CurrentKey(form.openAiApiKey, store) == "" then NoKeyText else OpenAiFailedText)
    ensures var r := SaveSettings(form, store, env, logged, probes);
      r.flash.kind == Warning ==> (r.flash.text == NoKeyText <==> CurrentKey(form.openAiApiKey, store) == "")
    ensures var r := SaveSettings(form, store, env, logged, probes);
      probes.listModelsSucceeds && CurrentKey(form.openAiApiKey, store) != "" ==> r.flash == Alert(Success, SavedText)
    ensures var r := SaveSettings(form, store, env, logged, probes);
      && r.probe.Some?
      && r.probe.value == OpenAi.CheckStatus(Read(r.store, OpenAi.ApiKeyStoreKey), r.env, logged, probes.listModelsSucceeds)
      && (!r.probe.value.accessible ==>
            r.flash == Alert(Warning, if CurrentKey(form.openAiApiKey, store) == "" then NoKeyText else OpenAiFailedText))
      && (r.probe.value.accessible && !(form.openAiApiKey.Some? && IsBlank(form.openAiApiKey.value)) ==>
            r.flash == Alert(Success, SavedText))
  {
    SaveRunsProvider(form, store, env, logged, probes);
  }

  /** With no key posted and none stored, the key from the environment
      (OPENAI_API_KEY, else API_KEY) is the one tested, and a working API makes the save succeed; with no key anywhere
      `listModels` is never called and the save warns that no key was found. The
      handler's own `currentApiKey` looks only at the store, so a failing API gets
      that same warning even when the environment holds a key. */
  lemma SaveEnvironmentKey(form: SettingsForm, store: Store, env: Env, logged: bool, probes: Probes)
    requires SelectedProvider(form) == "openai" && !SaveWriteFails(form, store)
    requires form.openAiApiKey.None? && OrElse(Get(store, OpenAi.ApiKeyStoreKey), "") == ""
    ensures var r := SaveSettings(form, store, env, logged, probes);
      && (r.probe.value.listModelsCalled <==> OpenAi.EnvApiKey(env) != "")
      && (OpenAi.EnvApiKey(env) != "" && probes.listModelsSucceeds ==> r.flash == Alert(Success, SavedText))
      && (OpenAi.EnvApiKey(env) == "" ==> r.flash == Alert(Warning, NoKeyText))
      && (!probes.listModelsSucceeds ==> r.flash == Alert(Warning, NoKeyText))
  {
    SaveRunsProvider(form, store, env, logged, probes);
  }

  /** A blank submitted key clears the stored key and drops OPENAI_API_KEY from the
      environment, so the test can only use API_KEY: it succeeds, with the info
      message, exactly when API_KEY is set and the API answers. */
  lemma SaveBlankKeyClears(form: SettingsForm, store: Store, env: Env, logged: bool, probes: Probes)
    requires SelectedProvider(form) == "openai" && !SaveWriteFails(form, store)
    requires form.openAiApiKey.Some? && IsBlank(form.openAiApiKey.value)
    ensures var r := SaveSettings(form, store, env, logged, probes);
      && r.store.data[OpenAi.ApiKeyStoreKey] == ""
      && "OPENAI_API_KEY" !in r.env
      && r.probe.Some?
      && (r.probe.value.listModelsCalled <==> Truthy(EnvGet(env, "API_KEY")))
      && (r.flash.kind == Info <==> probes.listModelsSucceeds && Truthy(EnvGet(env, "API_KEY")))
      && (r.flash.kind == Info ==> r.flash.text == ClearedText + ConnectedSuffix)
      && (r.flash.kind != Info ==> r.flash == Alert(Warning, NoKeyText))
  {
    SaveRunsProvider(form, store, env, logged, probes);
  }

  /** Ollama provider: a failed probe warns about the connection; otherwise the save
      warns that the model is missing exactly when no listed model has its name. */
  lemma SaveOllamaDecision(form: SettingsForm, store: Store, env: Env, logged: bool, probes: Probes)
    requires SelectedProvider(form) == "ollama" && !SaveWriteFails(form, store)
    ensures var r := SaveSettings(form, store, env, logged, probes);
      && r.probe.None?
      && (!Ollama.CheckStatus(probes.statusTags) ==> r.flash == Alert(Warning, OllamaFailedText))
      && (Ollama.CheckStatus(probes.statusTags) ==>
            (r.flash == Alert(Warning, ModelMissingText(SelectedOllamaModel(form))) <==>
             !ModelListed(Ollama.GetModels(probes.modelsTags), SelectedOllamaModel(form))))
      && (Ollama.CheckStatus(probes.statusTags) && ModelListed(Ollama.GetModels(probes.modelsTags), SelectedOllamaModel(form)) ==>
            r.flash == Alert(Success, SavedText))
  {
    SaveRunsProvider(form, store, env, logged, probes);
  }

  /** Any other provider value is saved without a connection test. */
  lemma SaveOtherProvider(form: SettingsForm, store: Store, env: Env, logged: bool, probes: Probes)
    requires SelectedProvider(form) != "openai" && SelectedProvider(form) != "ollama"
    requires !SaveWriteFails(form, store)
    ensures SaveSettings(form, store, env, logged, probes) == SaveResult(
      SaveSettings(form, store, env, logged, probes).store, SaveSettings(form, store, env, logged, probes).env,
      logged, None, Alert(Success, SavedText))
  {
  }
}
